=== FILE: README.md ===
# MPI-Unit-Test: collective verdicts and ordered reporting, in Dafny

This project models the core of MPI-Unit-Test, a header-only C++ harness for
tests that run on every rank of an MPI job. It covers the protocol that turns
per-rank outcomes into one collective verdict and prints diagnostics without
interleaving:

- `global_reduce`: an all-reduce sum of 0/1 conditions, compared with the
  world size.
- `send_string` / `recv_string`: length-prefixed string framing. The size is
  sent first. The characters follow only when the size is non-zero.
- `BaseAssertion`: message building through chained `<<`.
- `LocalAssertion`: fails and reports only on the calling rank.
- `GlobalAssertion`: reduces the conditions and fails the test on every rank.
  Rank 0 then gathers each rank's message in ascending rank order.
- `Test`: the pass flag, `fail()`, `test_name()` and `run()`. `run()` ends
  with a reduce that produces the collective verdict.
- `register_test` and `run_all`: per-suite tallies and the summary lines.

The N ranks are a sequence of per-rank states indexed by rank. `comm_rank`
is the index and `comm_size` is the length. Each collective step is a pure
function over that sequence:

- An all-reduce becomes a count over the sequence.
- A point-to-point channel becomes a FIFO sequence of packets. MPI messages
  between one pair of ranks with one tag do not overtake each other.
- Each rank's standard output is its own sequence of lines, one per write
  ended by `std::endl`. Each line carries an abstract colour tag (`Plain`,
  `Red`, `Green`, `Blue`) instead of ANSI escapes.
- The report an assertion makes at the end of its scope is an explicit
  finalize step: `FinalizeLocal` or `FinalizeGlobal`.

Files:

- `common.dfy` (module `Common`): the reduce, the in-memory layout of a
  64-bit little-endian `std::size_t`, and the framing.
- `output.dfy` (module `Output`): lines, colours and decimal rendering.
- `test.dfy` (module `Tests`): the Test entity.
- `assertion.dfy` (module `Assertions`): local and global assertions and the
  gather.
- `runner.dfy` (module `Runner`): test bodies, `run()`, the registry and
  `run_all`.
- `example.dfy` (module `Example`): the repository's usage scenario on four
  ranks.

A test body is a sequence of steps. A `LocalStep` records which ranks raise a
local assertion at that point, and with what check. A `GlobalStep` gives the
check every rank raises at the same point. A `FailStep` records which ranks
call `fail()` at that point. So the model only represents
bodies in which every rank makes the same global assertions in the same
order. Every rank builds the same registry at start-up, so one registry value
stands for all of them. The suites keep a fixed order, and a suite seen for
the first time goes at the end.

## Model

| member | source | states |
|---|---|---|
| `Common.CountTrueIsSize` | include/mpitest/common.hpp:21-27 | The all-reduced sum of the 0/1 contributions equals the number of ranks exactly when every rank contributed a true condition. |
| `Common.GlobalReduce` | include/mpitest/common.hpp:21-28 | Each rank's result is true iff every rank's condition is true. All ranks get the same result. A single false condition on any rank makes the result false on every rank. |
| `Common.EncodeSizeT` | include/mpitest/common.hpp:31-32 | The size goes out as exactly `sizeof(size_t)` = 8 bytes, and reading those bytes back gives the size. |
| `Common.DecodeSizeT` | include/mpitest/common.hpp:38-40 | The 8 received bytes decode to a value below 2^64, and encoding that value gives the same bytes, so the size layout is a bijection. |
| `Common.IntCount` | include/mpitest/common.hpp:34 | The `int count` MPI receives for a `size_t` is in the 32-bit `int` range, equal to the size modulo 2^32, and equal to the size itself whenever the size is at most INT_MAX. |
| `Common.SendString` | include/mpitest/common.hpp:30-35 | The size packet is always sent first and decodes to the string's length. A character packet holding exactly the string follows iff the length is non-zero. Only strings of at most INT_MAX characters are sent, because the length is passed to `MPI_Send` as an `int` count. |
| `Common.RecvString` | include/mpitest/common.hpp:37-49 | A successful receive yields a string whose length is the received size. It consumes one packet when that size is 0, so no payload receive happens, and two otherwise. A zero size yields "". With nothing sent the receive blocks. A character message where the size is expected is a type mismatch, and a size message longer than a `size_t` is truncation. A size whose `int` count is negative fails with a count error. A payload must fit in the `int` count, which is the size wrapped modulo 2^32. |
| `Common.RecvSendRoundTrip` | include/mpitest/common.hpp:30-49 | Whatever follows on the channel, `recv_string` on what `send_string` emitted returns the original string, the empty string included, and leaves exactly the following packets. This holds for every string of at most INT_MAX characters, the ones whose length survives the `int` count. |
| `Output.NatToStringValue` | include/mpitest/assertion.hpp:170 | Reading back the decimal digits printed for a rank number gives that rank number. |
| `Tests.NewTest` | include/mpitest/test.hpp:86 | A constructed test stores its suite and name, and its pass flag starts true. |
| `Tests.Fail` | include/mpitest/test.hpp:127 | `fail()` leaves the flag false whatever it was before, and the identity unchanged. |
| `Tests.TestName` | include/mpitest/test.hpp:132 | The name is the suite, then "::", then the test name, at the stated positions. |
| `Tests.NameStartsAfterLastColon` | include/mpitest/test.hpp:132 | When the test name holds no colon, the last colon of the printed name is the second one of the "::" after the suite, whatever colons the suite holds. |
| `Tests.TestNameInjective` | include/mpitest/test.hpp:132 | When test names hold no colon, as class names never do, two tests with the same printed `suite::name` are the same test. This includes suites such as "a::b" that name a nested namespace. |
| `Assertions.NewAssertion` | include/mpitest/assertion.hpp:42-45 | The constructor stores the test, the assertion text, the file, the line and the condition unchanged, and starts with an empty message. |
| `Assertions.Append` | include/mpitest/assertion.hpp:52-55 | `<<` puts the piece at the end of the message and changes nothing else. |
| `Assertions.AppendAll` | include/mpitest/assertion.hpp:52-60 | After chained `<<`, `message()` is the old message followed by every piece in order. With no pieces it is unchanged, so a fresh assertion's message is empty. |
| `Assertions.FinalizeLocal` | include/mpitest/assertion.hpp:109-122 | With a true condition, nothing changes and nothing is printed. With a false condition, this rank's flag drops and one header line is printed. A "rank r: msg" line follows only when the message is non-empty. Every line it prints is an assertion report: red, and either indented past the "   - " bullet or ending in the full stop after "FAILED". |
| `Assertions.NonEmptyMessages` | include/mpitest/assertion.hpp:146-174 | The reported (rank, message) pairs are strictly ascending by rank. Each carries that rank's own non-empty message. They cover every rank whose message is non-empty. |
| `Assertions.Transfer` | include/mpitest/assertion.hpp:162-173 | In iteration i > 0 of the gather loop, rank i frames its message onto its channel to rank 0, and rank 0 receives exactly that message back. |
| `Assertions.Gather` | include/mpitest/assertion.hpp:146-174 | Iteration 0 lets rank 0 report its own message. Each rank i > 0 then sends once on its channel to rank 0, and rank 0 receives from ranks 1..size-1 in that order. Every receive returns the sender's message intact, and what rank 0 reports equals the ascending non-empty list. |
| `Assertions.FinalizeGlobal` | include/mpitest/assertion.hpp:140-179 | If the condition holds on every rank, no test changes, no rank prints and nothing is sent. Otherwise every rank's test is failed and ranks other than 0 print nothing. Every line printed is an assertion report. |
| `Assertions.FailureLines` | include/mpitest/assertion.hpp:147-172 | Rank 0's output for a failed global assertion is the header followed by one "rank i: msg" line per reported pair, in order, and every one of these lines is an assertion report. |
| `Assertions.GlobalFailureReport` | include/mpitest/assertion.hpp:146-176 | When the global assertion fails, rank 0 prints the header and then "rank i: msg_i" for exactly the non-empty messages in ascending i, its own first. Every rank with a non-empty message has its line there. Exactly size-1 transfers happen, the k-th from rank k+1 to rank 0, carrying that rank's framed message. |
| `Runner.Raise` | include/mpitest/assertion.hpp:187-194 | An assertion macro followed by `<<` pieces builds an assertion in the running test with that text, location and condition, and with the concatenated pieces as its message. |
| `Runner.ApplyLocal` | include/mpitest/assertion.hpp:109-121 | Local assertions fail only the rank whose condition was false. Ranks that raised nothing or passed are left exactly as they were, and output is only appended. |
| `Runner.ApplyGlobal` | include/mpitest/assertion.hpp:140-178 | A global assertion that holds on every rank leaves the world unchanged. One that fails anywhere leaves every rank's flag false. |
| `Runner.ApplyFail` | include/mpitest/test.hpp:127 | `fail()` called on some ranks drops exactly those ranks' flags and prints nothing. Ranks that do not call it are left exactly as they were. |
| `Runner.ApplyStep` | include/mpitest/test.hpp:107 | After one point of the body (an assertion or a `fail()` call), all flags are true iff they were all true before and every condition checked at that point held and no rank called `fail()`. Every rank adds only assertion reports to its output. |
| `Runner.RunBody` | include/mpitest/test.hpp:107-111 | After the body, every rank's flag is true iff every flag was true beforehand, every assertion in the body held on the ranks that raised it, and no rank called `fail()`. Running the body never changes which test a rank holds and never erases output. A flag can only move from true to false. |
| `Runner.RunTest` | include/mpitest/test.hpp:99-122 | `run()` overwrites each rank's flag with the collective verdict and returns it. The verdict is identical on every rank. It is true iff all flags were true at the start, no assertion in the body failed on any rank, and no rank called `fail()`. Rank 0 prints the Running line first and the verdict line last, with only assertion reports between them. The other ranks print only assertion reports. |
| `Runner.RunLinesNotReports` | include/mpitest/test.hpp:100-120 | Neither the Running line nor the verdict line has the shape of an assertion report, so the two are told apart from the reports around them. |
| `Runner.FailCallFailsEveryRank` | include/mpitest/test.hpp:99-127 | A `fail()` call on a single rank makes `run()` return false on every rank. |
| `Runner.LocalFailureFailsEveryRank` | include/mpitest/test.hpp:107-111 | A local assertion that fails on a single rank makes `run()` return false on every rank. |
| `Runner.Register` | include/mpitest/test.hpp:38-40 | `register_test` appends the test to the end of its suite's list and keeps the earlier order. Other suites' lists are unchanged, suite names stay distinct, and a new suite goes after the known ones. |
| `Runner.RegisterKeepsRegistered` | include/mpitest/test.hpp:38-40 | `register_test` keeps suite names distinct, files every test under its own suite, and never leaves a suite without tests, since a suite's entry comes into being with its first test. |
| `Runner.FreshWorld` | include/mpitest/test.hpp:86 | Every rank holds its own newly constructed instance of the test, with its pass flag true. |
| `Runner.RunFresh` | include/mpitest/test.hpp:59-62 | `run()` on every rank's own fresh instance of a registered test returns true iff its body held everywhere. Each rank's earlier output is kept. Rank 0 adds the Running line, its assertion reports and the verdict line for that verdict, in that order. Ranks other than 0 add only assertion reports. |
| `Runner.RunSuite` | include/mpitest/test.hpp:58-64 | The number of tests in a suite whose `run()` returned true equals the number of tests whose body held everywhere. Each rank's earlier output is kept, and ranks other than 0 add only assertion reports. |
| `Runner.RunSuites` | include/mpitest/test.hpp:56-64 | For each suite in registry order, the tally gives the suite's name, total = number of registered tests, and passed = number of tests that passed collectively. |
| `Runner.SummaryLine` | include/mpitest/test.hpp:68-75 | A suite's summary line is green iff P == T and red otherwise. |
| `Runner.RunAll` | include/mpitest/test.hpp:49-79 | Rank 0 opens with the world size banner. After every test has run, it prints a blank line, the "Summary:" heading and one "suite P/T passed" line per suite, in registry order, with total = number of registered tests and passed = the number that passed collectively. Ranks other than 0 print no banner, no Running or verdict line and no summary: all they print is assertion reports. It runs only registries `register_test` can build: distinct suite names, every test under its own suite, and no suite without tests. |
| `Runner.SummaryGreenIffAllPassed` | include/mpitest/test.hpp:66-76 | The summary line of a suite tallied as `RunAll` tallies it (passed = tests with a true collective verdict, total = registered tests) is green exactly when every one of its tests got a true collective verdict. |
| `Example.ExampleRegistry` | example.cpp:4-13 | The two example tests register into one suite in declaration order. |
| `Example.ExampleLocalFailure` | example.cpp:8-13 | The local failure on rank 2 alone makes test1's verdict false on all four ranks. |
| `Example.ExampleLocalReport` | example.cpp:11-12 | Only rank 2 reports the local failure, with the header and "rank 2: debug message". The other ranks are untouched. |
| `Example.ExampleSummary` | example.cpp:4-13 | With four ranks, suite0 is tallied as 1 of 2 passed and shown in red. |
| `Example.GlobalRankTwoExample` | include/mpitest/assertion.hpp:140-176 | A global `rank != 2` on four ranks, with a message on rank 2 only, fails every rank. Rank 0 prints the header and one line for rank 2. Ranks 1 to 3 each transfer their message once. |

## Left out

- The MPI runtime: `MPI_Init`, `MPI_Finalize`, `MPI_Barrier`, and real `MPI_Allreduce`, `MPI_Send` and `MPI_Recv`. They are replaced by pure functions over the rank sequence. The two barriers in `run()` carry no state in a sequential model, so they leave no trace.
- Blocking and deadlock when ranks make different collective calls. This is concurrency. The step representation only expresses bodies where every rank raises the same global assertions in the same order.
- The double `MPI_Init` (in `main` and in `run_all`), `main` itself, and the process exit code. These are lifecycle plumbing.
- The ANSI escape classes of `ioformat.hpp`. Colour is an abstract tag per line. `format::Clear()` followed by `std::endl` appears as an empty plain line.
- The `TEST`, `GLOBAL_ASSERT` and `LOCAL_ASSERT` macros, static-initialisation registration, and destructor timing. A test is given as a `TestDef`, and its assertions as `Check` values reported by an explicit finalize step.
- The iteration order of `std::unordered_map` in `run_all`. Suites are kept in one fixed order, the same on every rank, and the summary uses that same order.
- `operator<<` of arbitrary types into the message stream. Each streamed value is given already rendered as a string.
- The `Running` notice and the per-test passed/failed line of `run()` are modelled as rank 0's output lines. The passed line keeps the source's text `name:  passed`, with two spaces because the colour escape sits between them.
- Common.RecvString: a character message where the size is expected, or a size message where characters are expected, is an MPI type mismatch and is modelled as `Mismatch`. A size message shorter than a `size_t` is also modelled as `Mismatch`, although MPI would accept it and leave part of `sz` uninitialised. A size message longer than a `size_t`, and a payload longer than the announced size, are `Truncated`. A payload shorter than the announced size leaves NUL characters from `resize`.
- Common.SendString: a string must have at most INT_MAX (2^31 - 1) characters. `send_string` passes its `size_t` length to `MPI_Send` as an `int` count. A longer string gives a negative count, which is an MPI count error, or a count wrapped modulo 2^32, which sends only part of the string. The model does not describe what such a send does.
- RecvSendRoundTrip: proved for strings of at most INT_MAX characters only. Beyond that the source's round trip breaks, as the `Common.SendString` line above says.
- Common.RecvString: an announced size whose wrapped `int` count is negative is a `BadCount` failure. MPI reports `MPI_ERR_COUNT`, which aborts the job under the default error handler; the abort is not modelled.
- Common.SendString: a message is a sequence of characters, and its length is counted in characters, not bytes. For text outside ASCII the source sends the UTF-8 byte count and bytes (two for "é"), while the model sends one character. The round trip is the same either way.
- The size_t layout is fixed to 8 little-endian bytes. Sender and receiver share it, so the round trip does not depend on this choice.
- Running `run_all` twice with fresh test instances gives identical tallies, because `RunAll`'s tallies equal `Tallies(reg)`, a function of the registry alone. The source's `Test` objects are not fresh across calls, but `main` calls `run_all` once.
- Output.Line: a `Line` is one write ended by `std::endl`, not one physical line of the terminal. A message holding '\n' prints several physical lines. For example, the message "x\n   - s::t:  passed" prints a physical line that reads like a green verdict line. So `ReportLine`, `RunLinesNotReports` and `RunAll` tell report lines apart by shape per `Line` only.
- Runner.RunAll: for ranks other than 0, the model states only that every line printed has the shape of an assertion report. It does not say which assertion printed each line; `FinalizeLocal` and `FinalizeGlobal` state that per assertion.
- Runner.RunSuite: rank 0's output is characterised per test by `RunFresh` (Running line, reports, verdict line). `RunSuite`, `RunSuites` and `RunAll` do not restate it as the whole sequence of per-test blocks.

=== FILE: assertion.dfy ===
/**
 Local and global assertions. An assertion is built, receives its message
 through chained appends, and reports when its scope ends; the end-of-scope
 report is the explicit `FinalizeLocal` / `FinalizeGlobal` step here.
 */
module Assertions {
  import opened Common
  import opened Output
  import opened Tests

  /** The state a BaseAssertion carries: the test it was raised in, the text
      of the checked expression, its source location, the outcome on this
      rank, and the message accumulated so far. */
  datatype Assertion = Assertion(
    test: TestId,
    text: string,
    file: string,
    line: int,
    condition: bool,
    message: string)

  /** The constructor: everything stored as given, the message still empty. */
  function NewAssertion(test: TestId, text: string, file: string, line: int, condition: bool): (a: Assertion)
    ensures a.test == test && a.text == text && a.file == file
    ensures a.line == line && a.condition == condition
    ensures a.message == ""
  {
    Assertion(test, text, file, line, condition, "")
  }

  /** `operator<<`: the rendering of the streamed value goes to the end of the
      message; nothing else changes. */
  function Append(a: Assertion, piece: string): (r: Assertion)
    ensures r.message == a.message + piece
    ensures r.(message := a.message) == a
  {
    a.(message := a.message + piece)
  }

  /** The pieces written one after another. */
  function Concat(pieces: seq<string>): string
  {
    if |pieces| == 0 then "" else pieces[0] + Concat(pieces[1..])
  }

  /** `a << p0 << p1 << ...`: appends applied left to right. The message ends
      with all pieces in order; with no pieces it is unchanged. */
  function AppendAll(a: Assertion, pieces: seq<string>): (r: Assertion)
    ensures r.message == a.message + Concat(pieces)
    ensures r.(message := a.message) == a
    decreases |pieces|
  {
    if |pieces| == 0 then a
    else
      var r := AppendAll(Append(a, pieces[0]), pieces[1..]);
      assert r.message == a.message + (pieces[0] + Concat(pieces[1..]));
      r
  }

  /** The header line printed for a failed assertion. */
  function FailureHeader(a: Assertion): Line
  {
    Line(Red, "   - Assertion " + a.text + " in test " + TestName(a.test)
      + " (" + a.file + "::" + IntToString(a.line) + ") FAILED.")
  }

  /** The line attributing a message to a rank. */
  function RankLine(rank: nat, msg: string): Line
  {
    Line(Red, "      - rank " + NatToString(rank) + ": " + msg)
  }

  /** The lines an assertion report is made of, told apart by their shape:
      red, and either a rank line, indented past the "   - " bullet every
      other line of the harness starts with, or a header, closed by the full
      stop after "FAILED". */
  predicate ReportLine(l: Line)
  {
    && l.color == Red
    && |l.text| >= 4
    && (l.text[3] == ' ' || l.text[|l.text| - 1] == '.')
  }

  lemma FailureHeaderIsReport(a: Assertion)
    ensures ReportLine(FailureHeader(a))
  {
    var t := FailureHeader(a).text;
    assert t[|t| - 1] == '.';
  }

  lemma RankLineIsReport(rank: nat, msg: string)
    ensures ReportLine(RankLine(rank, msg))
  {
    assert RankLine(rank, msg).text[3] == ' ';
  }

  /* ---------------------------------------------------------------------- */
  /* LocalAssertion                                                         */
  /* ---------------------------------------------------------------------- */

  datatype LocalReport = LocalReport(test: Test, lines: seq<Line>)

  /** End of scope of a LocalAssertion on rank `rank`, whose own instance of
      the test is `t`. It touches nothing but that instance and that rank's
      output. */
  function FinalizeLocal(a: Assertion, t: Test, rank: nat): (o: LocalReport)
    requires a.test == t.id
    ensures o.test.id == t.id
    ensures o.test.passed <==> t.passed && a.condition
    ensures a.condition ==> o == LocalReport(t, [])
    ensures !a.condition ==>
      && |o.lines| == (if a.message == "" then 1 else 2)
      && o.lines[0] == FailureHeader(a)
      && (a.message != "" ==> o.lines[1] == RankLine(rank, a.message))
    ensures forall j :: 0 <= j < |o.lines| ==> ReportLine(o.lines[j])
  {
    if a.condition then LocalReport(t, [])
    else
      FailureHeaderIsReport(a);
      RankLineIsReport(rank, a.message);
      var header := [FailureHeader(a)];
      var detail := if |a.message| > 0 then [RankLine(rank, a.message)] else [];
      LocalReport(Fail(t), header + detail)
  }

  /* ---------------------------------------------------------------------- */
  /* GlobalAssertion                                                        */
  /* ---------------------------------------------------------------------- */

  function Conditions(asserts: seq<Assertion>): (conds: seq<bool>)
    ensures |conds| == |asserts|
    ensures forall r :: 0 <= r < |asserts| ==> conds[r] == asserts[r].condition
  {
    seq(|asserts|, r requires 0 <= r < |asserts| => asserts[r].condition)
  }

  function Messages(asserts: seq<Assertion>): (msgs: seq<string>)
    ensures |msgs| == |asserts|
    ensures forall r :: 0 <= r < |asserts| ==> msgs[r] == asserts[r].message
  {
    seq(|asserts|, r requires 0 <= r < |asserts| => asserts[r].message)
  }

  predicate AllSendable(msgs: seq<string>)
  {
    forall r :: 0 <= r < |msgs| ==> Sendable(msgs[r])
  }

  /** The (rank, message) pairs rank 0 prints for ranks below n: exactly the
      ranks with a non-empty message, in strictly ascending rank order. */
  function NonEmptyMessages(msgs: seq<string>, n: nat): (e: seq<(nat, string)>)
    requires n <= |msgs|
    ensures forall j :: 0 <= j < |e| ==> e[j].0 < n && e[j].1 == msgs[e[j].0] && e[j].1 != ""
    ensures forall j, k :: 0 <= j < k < |e| ==> e[j].0 < e[k].0
    ensures forall i :: 0 <= i < n && msgs[i] != "" ==> (i, msgs[i]) in e
  {
    if n == 0 then []
    else
      var e := NonEmptyMessages(msgs, n - 1);
      var i := n - 1;
      if msgs[i] != "" then e + [(i, msgs[i])] else e
  }

  /** One point-to-point transfer of the gather: rank `sender` framed its
      message into `packets` on its channel to rank 0, and rank 0 took
      `received` off that channel. */
  datatype Exchange = Exchange(sender: nat, packets: seq<Packet>, received: string)

  datatype Gathered = Gathered(reported: seq<(nat, string)>, exchanges: seq<Exchange>)

  /** One iteration i > 0 of the gather loop: rank `sender` frames its message
      onto its (empty) channel to rank 0, and rank 0 receives from it. The
      receive completes, leaves the channel empty, and returns the message
      intact; that is the framing round trip. */
  function Transfer(sender: nat, msg: string): (x: Exchange)
    requires Sendable(msg)
    ensures x.sender == sender && x.packets == SendString(msg)
    ensures x.received == msg
  {
    var chan := SendString(msg);
    ReceiveWholeChannel(msg);
    Exchange(sender, chan, RecvString(chan).value.0)
  }

  lemma ReceiveWholeChannel(s: string)
    requires Sendable(s)
    ensures RecvString(SendString(s)) == Success((s, []))
  {
    RecvSendRoundTrip(s, []);
    assert SendString(s) + [] == SendString(s);
  }

  /** The first n iterations of the gather loop of a failed GlobalAssertion,
      played out over all ranks. Iteration 0 is rank 0 reporting its own
      message; iteration i > 0 is the transfer from rank i, after which rank 0
      reports what it received when it is non-empty. */
  function Gather(msgs: seq<string>, n: nat): (g: Gathered)
    requires 1 <= n <= |msgs|
    requires AllSendable(msgs)
    ensures g.reported == NonEmptyMessages(msgs, n)
    ensures |g.exchanges| == n - 1
    ensures g.exchanges == Transfers(msgs, n)
    decreases n
  {
    if n == 1 then
      Gathered(if |msgs[0]| > 0 then [(0, msgs[0])] else [], [])
    else
      var g := Gather(msgs, n - 1);
      var x := Transfer(n - 1, msgs[n - 1]);
      var reported := g.reported + (if |x.received| > 0 then [(n - 1, x.received)] else []);
      TransfersStep(msgs, n);
      Gathered(reported, g.exchanges + [x])
  }

  /** The transfers from ranks 1 to n-1, in that order. */
  function Transfers(msgs: seq<string>, n: nat): (xs: seq<Exchange>)
    requires 1 <= n <= |msgs|
    requires AllSendable(msgs)
    ensures |xs| == n - 1
    ensures forall k :: 0 <= k < n - 1 ==> xs[k] == Transfer(k + 1, msgs[k + 1])
  {
    seq(n - 1, k requires 0 <= k < n - 1 => Transfer(k + 1, msgs[k + 1]))
  }

  lemma TransfersStep(msgs: seq<string>, n: nat)
    requires 2 <= n <= |msgs|
    requires AllSendable(msgs)
    ensures Transfers(msgs, n) == Transfers(msgs, n - 1) + [Transfer(n - 1, msgs[n - 1])]
  {
  }

  function RankLines(entries: seq<(nat, string)>): (lines: seq<Line>)
    ensures |lines| == |entries|
    ensures forall j :: 0 <= j < |entries| ==> lines[j] == RankLine(entries[j].0, entries[j].1)
    ensures forall j :: 0 <= j < |entries| ==> ReportLine(lines[j])
  {
    forall j | 0 <= j < |entries| ensures ReportLine(RankLine(entries[j].0, entries[j].1)) {
      RankLineIsReport(entries[j].0, entries[j].1);
    }
    seq(|entries|, j requires 0 <= j < |entries| => RankLine(entries[j].0, entries[j].1))
  }

  datatype GlobalReport = GlobalReport(tests: seq<Test>, lines: seq<seq<Line>>, exchanges: seq<Exchange>)

  /** End of scope of a GlobalAssertion raised on every rank at the same point:
      `asserts[r]` and `tests[r]` are rank r's assertion and test instance. */
  function FinalizeGlobal(asserts: seq<Assertion>, tests: seq<Test>): (o: GlobalReport)
    requires 1 <= |asserts| == |tests|
    requires forall r :: 0 <= r < |tests| ==> asserts[r].test == tests[r].id
    requires AllSendable(Messages(asserts))
    ensures |o.tests| == |o.lines| == |tests|
    ensures forall r :: 0 <= r < |tests| ==> o.tests[r].id == tests[r].id
    ensures forall r, j :: 0 <= r < |tests| && 0 <= j < |o.lines[r]| ==> ReportLine(o.lines[r][j])
    ensures AllTrue(Conditions(asserts)) ==>
      && o.tests == tests
      && (forall r :: 0 <= r < |tests| ==> o.lines[r] == [])
      && o.exchanges == []
    ensures !AllTrue(Conditions(asserts)) ==>
      && (forall r :: 0 <= r < |tests| ==> !o.tests[r].passed)
      && (forall r :: 1 <= r < |tests| ==> o.lines[r] == [])
  {
    var verdicts := GlobalReduce(Conditions(asserts));
    if verdicts[0] then GlobalReport(tests, RankZeroOnly(|asserts|, []), [])
    else FailedGlobal(asserts, tests)
  }

  /** The failing branch of `FinalizeGlobal`: every rank's test fails, rank 0
      prints the header and the gathered messages, the others print nothing. */
  function FailedGlobal(asserts: seq<Assertion>, tests: seq<Test>): (o: GlobalReport)
    requires 1 <= |asserts| == |tests|
    requires AllSendable(Messages(asserts))
    ensures |o.tests| == |o.lines| == |tests|
    ensures forall r :: 0 <= r < |tests| ==> o.tests[r] == Fail(tests[r])
    ensures o.lines[0] == FailureLines(asserts[0], Gather(Messages(asserts), |asserts|).reported)
    ensures forall r :: 1 <= r < |tests| ==> o.lines[r] == []
    ensures o.exchanges == Gather(Messages(asserts), |asserts|).exchanges
  {
    var size := |asserts|;
    var failed := seq(size, r requires 0 <= r < size => Fail(tests[r]));
    var g := Gather(Messages(asserts), size);
    GlobalReport(failed, RankZeroOnly(size, FailureLines(asserts[0], g.reported)), g.exchanges)
  }

  /** What rank 0 prints for a failed global assertion: the header, then one
      line per reported (rank, message) pair; all of it report lines. */
  function FailureLines(a: Assertion, entries: seq<(nat, string)>): (lines: seq<Line>)
    ensures |lines| == |entries| + 1 && lines[0] == FailureHeader(a)
    ensures forall j :: 0 <= j < |entries| ==> lines[j + 1] == RankLine(entries[j].0, entries[j].1)
    ensures forall j :: 0 <= j < |lines| ==> ReportLine(lines[j])
  {
    var rest := RankLines(entries);
    FailureHeaderIsReport(a);
    HeaderThenReports(FailureHeader(a), rest);
    [FailureHeader(a)] + rest
  }

  /** A header followed by report lines is report lines throughout. */
  lemma HeaderThenReports(header: Line, rest: seq<Line>)
    requires ReportLine(header)
    requires forall j :: 0 <= j < |rest| ==> ReportLine(rest[j])
    ensures forall j :: 0 <= j < |rest| + 1 ==> ReportLine(([header] + rest)[j])
    ensures forall j :: 0 <= j < |rest| ==> ([header] + rest)[j + 1] == rest[j]
  {
    var lines := [header] + rest;
    forall j | 0 <= j < |lines| ensures ReportLine(lines[j]) {
      if j > 0 {
        assert lines[j] == rest[j - 1];
      }
    }
  }

  /** `lines` printed by rank 0 of `size` ranks, nothing by the others. */
  function RankZeroOnly(size: nat, lines: seq<Line>): (out: seq<seq<Line>>)
    requires 1 <= size
    ensures |out| == size && out[0] == lines
    ensures forall r :: 1 <= r < size ==> out[r] == []
  {
    seq(size, r => if r == 0 then lines else [])
  }

  /** Every listed (rank, message) pair has its line after the header. */
  lemma RankLinesCover(header: Line, entries: seq<(nat, string)>, rank: nat, msg: string)
    requires (rank, msg) in entries
    ensures RankLine(rank, msg) in [header] + RankLines(entries)
  {
    var j :| 0 <= j < |entries| && entries[j] == (rank, msg);
    assert ([header] + RankLines(entries))[j + 1] == RankLine(rank, msg);
  }

  /** What a failed GlobalAssertion reports: rank 0 prints the header and then
      one line per rank with a non-empty message, in ascending rank order and
      starting with its own; every other rank sends its framed message to
      rank 0 exactly once, and rank 0 receives from ranks 1 to size-1 in turn,
      getting each rank's message back intact. */
  lemma GlobalFailureReport(asserts: seq<Assertion>, tests: seq<Test>)
    requires 1 <= |asserts| == |tests|
    requires forall r :: 0 <= r < |tests| ==> asserts[r].test == tests[r].id
    requires AllSendable(Messages(asserts))
    requires !AllTrue(Conditions(asserts))
    ensures FinalizeGlobal(asserts, tests).lines[0] ==
      [FailureHeader(asserts[0])] + RankLines(NonEmptyMessages(Messages(asserts), |asserts|))
    ensures |FinalizeGlobal(asserts, tests).exchanges| == |asserts| - 1
    ensures forall k :: 0 <= k < |asserts| - 1 ==>
      FinalizeGlobal(asserts, tests).exchanges[k] ==
        Exchange(k + 1, SendString(asserts[k + 1].message), asserts[k + 1].message)
    ensures forall i :: 0 <= i < |asserts| && asserts[i].message != "" ==>
      RankLine(i, asserts[i].message) in FinalizeGlobal(asserts, tests).lines[0]
  {
    var g := Gather(Messages(asserts), |asserts|);
    assert forall k :: 0 <= k < |asserts| - 1 ==> g.exchanges[k] == Transfer(k + 1, asserts[k + 1].message);
    var e := NonEmptyMessages(Messages(asserts), |asserts|);
    var header := FailureHeader(asserts[0]);
    assert FailureLines(asserts[0], e) == [header] + RankLines(e);
    assert FinalizeGlobal(asserts, tests).lines[0] == [header] + RankLines(e);
    forall i | 0 <= i < |asserts| && asserts[i].message != ""
      ensures RankLine(i, asserts[i].message) in [header] + RankLines(e)
    {
      assert Messages(asserts)[i] == asserts[i].message;
      RankLinesCover(header, e, i, asserts[i].message);
    }
  }
}

=== FILE: common.dfy ===
/**
 The collective helpers every assertion and test relies on: the all-reduce
 verdict and the length-prefixed string framing used for point-to-point
 transfer.

 A world of N ranks is modelled as a sequence indexed by rank; `comm_rank` is
 the index and `comm_size` the length of that sequence. The MPI primitives are
 replaced by pure functions: an all-reduce-sum becomes a count over the
 sequence, and a channel between two ranks becomes a FIFO sequence of packets
 (MPI messages between one pair of ranks with one tag do not overtake each
 other).
 */
module Common {

  /** One byte of an MPI_BYTE or MPI_CHAR buffer. */
  newtype byte = b: int | 0 <= b < 256

  datatype Option<+T> = None | Some(value: T)

  /* ---------------------------------------------------------------------- */
  /* global_reduce                                                          */
  /* ---------------------------------------------------------------------- */

  predicate AllTrue(conds: seq<bool>)
  {
    forall r :: 0 <= r < |conds| ==> conds[r]
  }

  /** The value MPI_Allreduce with MPI_SUM delivers when every rank contributes
      its condition converted to 0 or 1. */
  function CountTrue(conds: seq<bool>): (n: nat)
    ensures n <= |conds|
  {
    if |conds| == 0 then 0
    else (if conds[0] then 1 else 0) + CountTrue(conds[1..])
  }

  /** Counting one more condition adds one exactly when it is true. */
  lemma {:induction false} CountTrueSnoc(conds: seq<bool>, b: bool)
    ensures CountTrue(conds + [b]) == CountTrue(conds) + (if b then 1 else 0)
    decreases |conds|
  {
    if |conds| > 0 {
      assert (conds + [b])[1..] == conds[1..] + [b];
      CountTrueSnoc(conds[1..], b);
    }
  }

  /** The sum reaches the number of ranks exactly when no rank contributed 0. */
  lemma {:induction false} CountTrueIsSize(conds: seq<bool>)
    ensures CountTrue(conds) == |conds| <==> AllTrue(conds)
  {
    if |conds| > 0 {
      CountTrueIsSize(conds[1..]);
      if !conds[0] {
        assert CountTrue(conds) <= |conds[1..]|;
      }
      if AllTrue(conds[1..]) && conds[0] {
        assert forall r :: 0 <= r < |conds| ==> conds[r] by {
          forall r | 0 <= r < |conds| ensures conds[r] {
            if r > 0 { assert conds[r] == conds[1..][r - 1]; }
          }
        }
      }
    }
  }

  /** global_reduce as every rank sees it: all ranks receive the same sum and
      compare it with the same communicator size. Entry r is rank r's result. */
  function GlobalReduce(conds: seq<bool>): (verdicts: seq<bool>)
    ensures |verdicts| == |conds|
    ensures forall r :: 0 <= r < |verdicts| ==> (verdicts[r] <==> AllTrue(conds))
    ensures forall r, s :: 0 <= r < |verdicts| && 0 <= s < |verdicts| ==> verdicts[r] == verdicts[s]
    ensures forall r, s :: 0 <= r < |conds| && 0 <= s < |verdicts| && !conds[r] ==> !verdicts[s]
  {
    var sum := CountTrue(conds);
    CountTrueIsSize(conds);
    seq(|conds|, _ => sum == |conds|)
  }

  /* ---------------------------------------------------------------------- */
  /* size_t in memory                                                       */
  /* ---------------------------------------------------------------------- */

  /** `send_string` transmits `sizeof(std::size_t)` raw bytes; the targets are
      64-bit little-endian machines, and sender and receiver share the layout. */
  const SizeTBytes: nat := 8

  function Pow256(k: nat): (p: nat)
    ensures p >= 1
  {
    if k == 0 then 1 else 256 * Pow256(k - 1)
  }

  /** One more than the largest std::size_t. */
  const SizeTModulus: nat := Pow256(SizeTBytes)

  lemma SizeTModulusValue()
    ensures SizeTModulus == 0x1_0000_0000_0000_0000
  {
    assert Pow256(2) == 0x1_0000;
    assert Pow256(4) == 0x1_0000_0000;
    assert Pow256(6) == 0x1_0000_0000_0000;
  }

  /** The k least significant base-256 digits of n, least significant first. */
  function LittleEndian(n: nat, k: nat): (bytes: seq<byte>)
    ensures |bytes| == k
  {
    if k == 0 then [] else [(n % 256) as byte] + LittleEndian(n / 256, k - 1)
  }

  function FromLittleEndian(bytes: seq<byte>): (n: nat)
    ensures n < Pow256(|bytes|)
  {
    if |bytes| == 0 then 0
    else bytes[0] as nat + 256 * FromLittleEndian(bytes[1..])
  }

  lemma {:induction false} FromLittleEndianInverse(n: nat, k: nat)
    requires n < Pow256(k)
    ensures FromLittleEndian(LittleEndian(n, k)) == n
  {
    if k > 0 {
      FromLittleEndianInverse(n / 256, k - 1);
      assert LittleEndian(n, k)[1..] == LittleEndian(n / 256, k - 1);
    }
  }

  lemma {:induction false} LittleEndianInverse(bytes: seq<byte>)
    ensures LittleEndian(FromLittleEndian(bytes), |bytes|) == bytes
  {
    if |bytes| > 0 {
      var n := FromLittleEndian(bytes);
      var tail := FromLittleEndian(bytes[1..]);
      assert n % 256 == bytes[0] as nat && n / 256 == tail;
      LittleEndianInverse(bytes[1..]);
    }
  }

  /** The in-memory bytes of a std::size_t holding n. */
  function EncodeSizeT(n: nat): (bytes: seq<byte>)
    requires n < SizeTModulus
    ensures |bytes| == SizeTBytes
    ensures FromLittleEndian(bytes) == n
  {
    FromLittleEndianInverse(n, SizeTBytes);
    LittleEndian(n, SizeTBytes)
  }

  /** The std::size_t whose in-memory bytes are `bytes`. */
  function DecodeSizeT(bytes: seq<byte>): (n: nat)
    requires |bytes| == SizeTBytes
    ensures n < SizeTModulus
    ensures EncodeSizeT(n) == bytes
  {
    LittleEndianInverse(bytes);
    FromLittleEndian(bytes)
  }

  /* ---------------------------------------------------------------------- */
  /* send_string / recv_string                                              */
  /* ---------------------------------------------------------------------- */

  /** One MPI message: the raw bytes of a size_t (MPI_BYTE) or a run of
      characters (MPI_CHAR). */
  datatype Packet = SizePacket(bytes: seq<byte>) | CharPacket(chars: string)

  /** Why a receive cannot complete: nothing was sent (a real MPI_Recv blocks
      forever), the next message is of the wrong kind or is a size_t message
      shorter than a size_t, it holds more elements than the receive buffer,
      or the element count passed to MPI_Recv is negative (MPI_ERR_COUNT). */
  datatype CommError = Blocked | Mismatch | Truncated | BadCount

  datatype Result<+T> = Success(value: T) | Failure(error: CommError)

  /** The largest value of a 32-bit C `int`. */
  const IntMax: nat := 0x7FFF_FFFF

  /** The `int count` MPI_Send and MPI_Recv see when handed a std::size_t:
      the size reduced modulo 2^32 and read as a two's-complement int. */
  function IntCount(size: nat): (count: int)
    ensures -0x8000_0000 <= count <= IntMax
    ensures (size - count) % 0x1_0000_0000 == 0
    ensures size <= IntMax ==> count == size
    ensures 0 <= count ==> count <= size
  {
    var low := size % 0x1_0000_0000;
    if low <= IntMax then low else low - 0x1_0000_0000
  }

  /** A string whose length reaches MPI_Send as the same, non-negative, int
      count, so that all its characters go out in one message. */
  predicate Sendable(s: string)
  {
    |s| <= IntMax
  }

  /** Every sendable length fits in a std::size_t. */
  lemma SendableFitsSizeT(s: string)
    requires Sendable(s)
    ensures |s| < SizeTModulus
    ensures IntCount(|s|) == |s|
  {
    SizeTModulusValue();
  }

  /** The packets `send_string` puts on the channel to the destination rank:
      always the size first, the characters only when there are some. */
  function SendString(s: string): (packets: seq<Packet>)
    requires Sendable(s)
    ensures 1 <= |packets| <= 2
    ensures packets[0].SizePacket? && |packets[0].bytes| == SizeTBytes
    ensures DecodeSizeT(packets[0].bytes) == |s|
    ensures |packets| == 2 <==> |s| > 0
    ensures |packets| == 2 ==> packets[1] == CharPacket(s)
  {
    SendableFitsSizeT(s);
    var header := SizePacket(EncodeSizeT(|s|));
    if |s| > 0 then [header, CharPacket(s)] else [header]
  }

  /** n NUL characters: what `std::string::resize` fills in. */
  function Nuls(n: nat): (s: string)
    ensures |s| == n
  {
    seq(n, _ => '\0')
  }

  /** `recv_string` on the channel `chan` from the source rank: one receive of
      a size_t, then, only when that size is non-zero, one receive into a
      buffer resized to the size, with the size passed as the int count. A
      shorter payload leaves the rest of the buffer as resize filled it.
      Returns the string and the packets still queued. */
  function RecvString(chan: seq<Packet>): (r: Result<(string, seq<Packet>)>)
    ensures r.Success? ==>
      && |chan| >= (if |r.value.0| == 0 then 1 else 2)
      && chan[0].SizePacket? && |chan[0].bytes| == SizeTBytes
      && |r.value.0| == DecodeSizeT(chan[0].bytes)
      && r.value.1 == chan[if |r.value.0| == 0 then 1 else 2..]
    ensures |chan| > 0 && chan[0].SizePacket? && chan[0].bytes == EncodeSizeT(0) ==>
      r == Success(("", chan[1..]))
    ensures |chan| > 0 && chan[0].SizePacket? && |chan[0].bytes| > SizeTBytes ==> r == Failure(Truncated)
    ensures |chan| > 0 && chan[0].CharPacket? ==> r == Failure(Mismatch)
    ensures |chan| == 0 ==> r == Failure(Blocked)
    ensures |chan| > 0 && chan[0].SizePacket? && |chan[0].bytes| == SizeTBytes ==>
      (IntCount(DecodeSizeT(chan[0].bytes)) < 0 ==> r == Failure(BadCount))
    ensures r.Success? && |chan| >= 2 && |r.value.0| > 0 ==>
      chan[1].CharPacket? && |chan[1].chars| <= IntCount(|r.value.0|)
  {
    if |chan| == 0 then Failure(Blocked)
    else match chan[0]
      case CharPacket(_) => Failure(Mismatch)
      case SizePacket(header) =>
        if |header| > SizeTBytes then Failure(Truncated)
        else if |header| < SizeTBytes then Failure(Mismatch)
        else
          var size := DecodeSizeT(header);
          var count := IntCount(size);
          if size == 0 then Success(("", chan[1..]))
          else if count < 0 then Failure(BadCount)
          else if |chan| < 2 then Failure(Blocked)
          else match chan[1]
            case SizePacket(_) => Failure(Mismatch)
            case CharPacket(payload) =>
              if |payload| > count then Failure(Truncated)
              else Success((payload + Nuls(size - |payload|), chan[2..]))
  }

  /** Whatever follows on the channel, `recv_string` takes back exactly the
      string `send_string` framed, the empty string included, and nothing more. */
  lemma RecvSendRoundTrip(s: string, rest: seq<Packet>)
    requires Sendable(s)
    ensures RecvString(SendString(s) + rest) == Success((s, rest))
  {
    var chan := SendString(s) + rest;
    SendableFitsSizeT(s);
    assert chan[0] == SizePacket(EncodeSizeT(|s|));
    if |s| > 0 {
      assert chan[1] == CharPacket(s);
      assert s + Nuls(0) == s;
      assert chan[2..] == rest;
    } else {
      assert chan[1..] == rest;
    }
  }
}

=== FILE: example.dfy ===
/**
 The usage scenario the repository ships, replayed on a world of four ranks:
 `suite0::test0` raises a passing global assertion with a message on every
 rank, and `suite0::test1` raises a failing local assertion on rank 2 only.
 */
module Example {
  import opened Common
  import opened Output
  import opened Tests
  import opened Assertions
  import opened Runner

  const World: nat := 4

  function Test0(): TestDef
  {
    var check := Check("true", "example.cpp", 5, true, ["message"]);
    TestDef(TestId("suite0", "test0"), [GlobalStep(seq(World, _ => check))])
  }

  function Test1(): TestDef
  {
    var check := Check("false", "example.cpp", 12, false, ["debug message"]);
    TestDef(TestId("suite0", "test1"), [LocalStep(seq(World, r => if r == 2 then Some(check) else None))])
  }

  /** Registering into an empty registry opens the test's suite. */
  lemma RegisterFirst(a: TestDef)
    ensures Register([], a) == [Suite(a.id.suite, [a])]
  {
    assert SuiteIndex([], a.id.suite) == 0;
  }

  /** A second test of the same suite goes after the first. */
  lemma RegisterSecond(a: TestDef, b: TestDef)
    requires b.id.suite == a.id.suite
    ensures Register([Suite(a.id.suite, [a])], b) == [Suite(a.id.suite, [a, b])]
  {
    var reg := [Suite(a.id.suite, [a])];
    assert SuiteIndex(reg, b.id.suite) == 0;
    assert [a] + [b] == [a, b];
  }

  /** Both tests land in one suite, in declaration order. */
  lemma ExampleRegistry()
    ensures Register(Register([], Test0()), Test1()) == [Suite("suite0", [Test0(), Test1()])]
  {
    RegisterFirst(Test0());
    RegisterSecond(Test0(), Test1());
  }

  lemma ExampleBodies()
    ensures ValidBody(Test0().body, World) && ValidBody(Test1().body, World)
    ensures BodyHolds(Test0().body)
    ensures !BodyHolds(Test1().body)
  {
    assert Concat(["message"]) == "message";
    assert StepHolds(Test0().body[0]);
    assert Test1().body[0].raisedOn[2].Some?;
    assert !StepHolds(Test1().body[0]);
  }

  /** The local failure on rank 2 alone fails test1 on all four ranks; rank
      0 opens with the Running line and closes with the failed line. */
  method ExampleLocalFailure() returns (run: TestRun)
    ensures |run.verdicts| == |run.ranks| == World
    ensures forall s :: 0 <= s < World ==> !run.verdicts[s] && !run.ranks[s].test.passed
    ensures |run.ranks[0].out| >= 2 && run.ranks[0].out[0] == RunningLine(Test1().id)
    ensures run.ranks[0].out[|run.ranks[0].out| - 1] == VerdictLine(Test1().id, false)
  {
    ExampleBodies();
    var after;
    run, after := RunTest(FreshWorld(Test1().id, seq(World, _ => [])), Test1().body);
  }

  /** Only rank 2 reports the local failure, with its message; the other
      ranks keep their flag and print nothing. */
  lemma ExampleLocalReport()
    ensures
      var w := FreshWorld(Test1().id, seq(World, _ => []));
      var w' := ApplyLocal(w, Test1().body[0].raisedOn);
      var check := Test1().body[0].raisedOn[2].value;
      && w'[2].out == [FailureHeader(Raise(Test1().id, check)), RankLine(2, "debug message")]
      && !w'[2].test.passed
      && w'[0] == w[0] && w'[1] == w[1] && w'[3] == w[3]
  {
    var w := FreshWorld(Test1().id, seq(World, _ => []));
    var check := Test1().body[0].raisedOn[2].value;
    var a := Raise(Test1().id, check);
    assert a.message == "debug message" by {
      assert Concat(["debug message"]) == "debug message";
    }
    assert w[2].test.id == Test1().id;
    var report := FinalizeLocal(a, w[2].test, 2);
    assert report.lines == [FailureHeader(a), RankLine(2, "debug message")];
    assert w[2].out == [];
  }

  /** test0 passes and test1 fails: the suite is summarised as 1/2, in red. */
  lemma ExampleSummary()
    ensures Tallies([Suite("suite0", [Test0(), Test1()])]) == [Tally("suite0", 1, 2)]
    ensures SummaryLine(Tally("suite0", 1, 2)).color == Red
  {
    var reg := [Suite("suite0", [Test0(), Test1()])];
    ExampleBodies();
    assert BodyVerdicts(reg[0].tests) == [true, false];
    assert CountTrue([true, false]) == 1;
  }

  /** Rank r's assertion for a global `rank != 2` on four ranks, where only
      rank 2 attaches a message. */
  function RankTwoAsserts(id: TestId): (asserts: seq<Assertion>)
    ensures |asserts| == World
    ensures forall r :: 0 <= r < World ==> asserts[r].test == id
    ensures Conditions(asserts) == [true, true, false, true]
    ensures Messages(asserts) == ["", "", "rank 2 disagrees", ""]
  {
    seq(World, r => Assertion(id, "rank != 2", "scenario.cpp", 1, r != 2, if r == 2 then "rank 2 disagrees" else ""))
  }

  lemma RankTwoGathered()
    ensures AllSendable(["", "", "rank 2 disagrees", ""])
    ensures NonEmptyMessages(["", "", "rank 2 disagrees", ""], 4) == [(2, "rank 2 disagrees")]
  {
  }

  /** A global assertion of `rank != 2` on four ranks, where only rank 2
      attaches a message: every rank fails the test, rank 0 prints the header
      and then a line for rank 2 only, and ranks 1 to 3 each hand over their
      message to rank 0 in rank order. */
  lemma GlobalRankTwoExample(id: TestId)
    ensures
      var asserts := RankTwoAsserts(id);
      var report := FinalizeGlobal(asserts, seq(World, _ => Test(id, true)));
      && (forall r :: 0 <= r < World ==> !report.tests[r].passed)
      && report.lines[0] == [FailureHeader(asserts[0])] + RankLines([(2, "rank 2 disagrees")])
      && report.lines[1] == report.lines[2] == report.lines[3] == []
      && |report.exchanges| == 3
      && report.exchanges[1] == Exchange(2, SendString("rank 2 disagrees"), "rank 2 disagrees")
      && (forall k :: 0 <= k < 3 ==>
            report.exchanges[k] == Exchange(k + 1, SendString(asserts[k + 1].message), asserts[k + 1].message))
  {
    var asserts := RankTwoAsserts(id);
    var tests := seq(World, _ => Test(id, true));
    RankTwoGathered();
    assert !AllTrue(Conditions(asserts)) by {
      assert !Conditions(asserts)[2];
    }
    GlobalFailureReport(asserts, tests);
  }
}

=== FILE: output.dfy ===
/**
 Console output, abstracted to whole lines. The ANSI escape sequences the
 harness wraps around its text are replaced by one colour tag per line; the
 tag is the colour in force while the visible text of the line is written.
 */
module Output {

  datatype Color = Plain | Red | Green | Blue

  /** One write ended by `std::endl`, in the colour in force when it was
      written. Its text may itself hold '\n' when a message does. */
  datatype Line = Line(color: Color, text: string)

  predicate IsDigit(c: char)
  {
    '0' <= c <= '9'
  }

  function DigitChar(d: nat): (c: char)
    requires d < 10
    ensures IsDigit(c) && (c as int) - ('0' as int) == d
  {
    (('0' as int) + d) as char
  }

  /** Decimal rendering of a natural number, as `operator<<` on an integer
      writes it: no sign, no leading zeros. */
  function NatToString(n: nat): (s: string)
    ensures |s| >= 1
    ensures forall i :: 0 <= i < |s| ==> IsDigit(s[i])
    ensures |s| > 1 ==> s[0] != '0'
    decreases n
  {
    if n < 10 then [DigitChar(n)] else NatToString(n / 10) + [DigitChar(n % 10)]
  }

  /** The number a run of decimal digits denotes. */
  function DigitsValue(s: string): (n: nat)
    requires forall i :: 0 <= i < |s| ==> IsDigit(s[i])
  {
    if |s| == 0 then 0
    else
      var last := s[|s| - 1];
      assert IsDigit(last);
      10 * DigitsValue(s[..|s| - 1]) + ((last as int) - ('0' as int))
  }

  /** Reading the printed digits back gives the number: rank numbers and
      line numbers in the report identify their rank and line. */
  lemma {:induction false} NatToStringValue(n: nat)
    ensures DigitsValue(NatToString(n)) == n
    decreases n
  {
    if n >= 10 {
      var s := NatToString(n);
      NatToStringValue(n / 10);
      assert s[..|s| - 1] == NatToString(n / 10);
    }
  }

  /** Decimal rendering of a signed int, with a leading minus when negative. */
  function IntToString(i: int): string
  {
    if i < 0 then "-" + NatToString(-i) else NatToString(i)
  }
}

=== FILE: runner.dfy ===
/**
 Running tests across the world: a test body as a sequence of assertion
 steps, `run()` with its closing collective verdict, the per-suite registry
 filled by `register_test`, and `run_all` with its tallies and summary.

 Every rank constructs the same tests in the same order, so one registry
 stands for the registry of every rank; what differs between ranks is each
 rank's own Test instance and its own output.
 */
module Runner {
  import opened Common
  import opened Output
  import opened Tests
  import opened Assertions

  /* ---------------------------------------------------------------------- */
  /* Test bodies                                                            */
  /* ---------------------------------------------------------------------- */

  /** What one rank writes at one assertion site:
      `LOCAL_ASSERT(cond) << p0 << p1 ...` or the GLOBAL_ASSERT equivalent. */
  datatype Check = Check(text: string, file: string, line: int, condition: bool, pieces: seq<string>)

  /** One point of a test body across the world. A local assertion may be
      raised on any subset of the ranks (`raisedOn[r]` is rank r's, if any); a
      global assertion is raised on every rank at the same point; `fail()` may
      be called on any subset of the ranks (`failOn[r]` says whether rank r
      calls it). */
  datatype Step =
    | LocalStep(raisedOn: seq<Option<Check>>)
    | GlobalStep(raisedBy: seq<Check>)
    | FailStep(failOn: seq<bool>)

  /** One rank: its instance of the running test and what it has printed. */
  datatype RankState = RankState(test: Test, out: seq<Line>)

  /** The assertion object a check creates in the test `id`, message built. */
  function Raise(id: TestId, c: Check): (a: Assertion)
    ensures a.test == id && a.text == c.text && a.file == c.file && a.line == c.line
    ensures a.condition == c.condition
    ensures a.message == Concat(c.pieces)
  {
    AppendAll(NewAssertion(id, c.text, c.file, c.line, c.condition), c.pieces)
  }

  /** A body fits a world of `size` ranks: every step has one entry per rank,
      and every message of a global assertion is a string the framing can
      carry. */
  predicate ValidStep(s: Step, size: nat)
  {
    match s
    case LocalStep(raised) => |raised| == size
    case GlobalStep(raised) =>
      |raised| == size && forall r :: 0 <= r < size ==> Sendable(Concat(raised[r].pieces))
    case FailStep(on) => |on| == size
  }

  predicate ValidBody(body: seq<Step>, size: nat)
  {
    forall k :: 0 <= k < |body| ==> ValidStep(body[k], size)
  }

  /** Every condition checked at this step holds on the ranks that check it. */
  predicate StepHolds(s: Step)
  {
    match s
    case LocalStep(raised) =>
      forall r :: 0 <= r < |raised| && raised[r].Some? ==> raised[r].value.condition
    case GlobalStep(raised) =>
      forall r :: 0 <= r < |raised| ==> raised[r].condition
    case FailStep(on) =>
      forall r :: 0 <= r < |on| ==> !on[r]
  }

  predicate BodyHolds(body: seq<Step>)
  {
    forall k :: 0 <= k < |body| ==> StepHolds(body[k])
  }

  function Flags(w: seq<RankState>): (flags: seq<bool>)
    ensures |flags| == |w|
    ensures forall r :: 0 <= r < |w| ==> flags[r] == w[r].test.passed
  {
    seq(|w|, r requires 0 <= r < |w| => w[r].test.passed)
  }

  predicate AllPassed(w: seq<RankState>)
  {
    forall r :: 0 <= r < |w| ==> w[r].test.passed
  }

  /** Nothing a step does changes which test a rank holds or erases output,
      and all any rank adds to its output is assertion reports. */
  predicate Evolves(w: seq<RankState>, w': seq<RankState>)
  {
    && |w'| == |w|
    && (forall r :: 0 <= r < |w| ==> w'[r].test.id == w[r].test.id)
    && (forall r :: 0 <= r < |w| ==> w'[r].test.passed ==> w[r].test.passed)
    && (forall r :: 0 <= r < |w| ==> w[r].out <= w'[r].out)
    && (forall r, j :: 0 <= r < |w| && |w[r].out| <= j < |w'[r].out| ==> ReportLine(w'[r].out[j]))
  }

  /** The end of scope of local assertions raised at one point. Rank r's flag
      drops exactly when rank r raised a failing check; a rank that raised
      nothing, or a passing check, is left exactly as it was. */
  function ApplyLocal(w: seq<RankState>, raised: seq<Option<Check>>): (w': seq<RankState>)
    requires |raised| == |w|
    ensures Evolves(w, w')
    ensures forall r :: 0 <= r < |w| ==>
      (w'[r].test.passed <==> w[r].test.passed && (raised[r].None? || raised[r].value.condition))
    ensures forall r :: 0 <= r < |w| && (raised[r].None? || raised[r].value.condition) ==> w'[r] == w[r]
  {
    seq(|w|, r requires 0 <= r < |w| =>
      match raised[r]
      case None => w[r]
      case Some(c) =>
        var report := FinalizeLocal(Raise(w[r].test.id, c), w[r].test, r);
        RankState(report.test, w[r].out + report.lines))
  }

  /** Rank r's assertion object for a global assertion site. */
  function RaiseAll(w: seq<RankState>, raised: seq<Check>): (asserts: seq<Assertion>)
    requires |w| == |raised|
    requires forall r :: 0 <= r < |w| ==> Sendable(Concat(raised[r].pieces))
    ensures |asserts| == |w|
    ensures forall r :: 0 <= r < |w| ==> asserts[r] == Raise(w[r].test.id, raised[r])
    ensures AllSendable(Messages(asserts))
    ensures AllTrue(Conditions(asserts)) <==> StepHolds(GlobalStep(raised))
  {
    var asserts := seq(|w|, r requires 0 <= r < |w| => Raise(w[r].test.id, raised[r]));
    assert forall r :: 0 <= r < |w| ==> Messages(asserts)[r] == Concat(raised[r].pieces);
    assert forall r :: 0 <= r < |w| ==> Conditions(asserts)[r] == raised[r].condition;
    asserts
  }

  function Instances(w: seq<RankState>): (tests: seq<Test>)
    ensures |tests| == |w|
    ensures forall r :: 0 <= r < |w| ==> tests[r] == w[r].test
  {
    seq(|w|, r requires 0 <= r < |w| => w[r].test)
  }

  /** Each rank takes its updated test instance and prints its lines. */
  function Deliver(w: seq<RankState>, tests: seq<Test>, lines: seq<seq<Line>>): (w': seq<RankState>)
    requires |tests| == |lines| == |w|
    ensures |w'| == |w|
    ensures forall r :: 0 <= r < |w| ==> w'[r].test == tests[r] && w'[r].out == w[r].out + lines[r]
  {
    seq(|w|, r requires 0 <= r < |w| => RankState(tests[r], w[r].out + lines[r]))
  }

  /** Delivering assertion reports adds nothing but assertion reports. */
  lemma DeliverReports(w: seq<RankState>, tests: seq<Test>, lines: seq<seq<Line>>)
    requires |tests| == |lines| == |w|
    requires forall r, j :: 0 <= r < |w| && 0 <= j < |lines[r]| ==> ReportLine(lines[r][j])
    ensures forall r, j :: 0 <= r < |w| && |w[r].out| <= j < |Deliver(w, tests, lines)[r].out| ==>
      ReportLine(Deliver(w, tests, lines)[r].out[j])
  {
    var w' := Deliver(w, tests, lines);
    forall r, j | 0 <= r < |w| && |w[r].out| <= j < |w'[r].out| ensures ReportLine(w'[r].out[j]) {
      assert w'[r].out[j] == lines[r][j - |w[r].out|];
    }
  }

  /** The end of scope of a global assertion raised on every rank. */
  function ApplyGlobal(w: seq<RankState>, raised: seq<Check>): (w': seq<RankState>)
    requires 1 <= |w| == |raised|
    requires forall r :: 0 <= r < |w| ==> Sendable(Concat(raised[r].pieces))
    ensures Evolves(w, w')
    ensures StepHolds(GlobalStep(raised)) ==> w' == w
    ensures !StepHolds(GlobalStep(raised)) ==> forall r :: 0 <= r < |w| ==> !w'[r].test.passed
  {
    var asserts := RaiseAll(w, raised);
    var report := FinalizeGlobal(asserts, Instances(w));
    var w' := Deliver(w, report.tests, report.lines);
    DeliverReports(w, report.tests, report.lines);
    assert StepHolds(GlobalStep(raised)) ==> w' == w by {
      if StepHolds(GlobalStep(raised)) {
        assert forall r :: 0 <= r < |w| ==> w[r].out + report.lines[r] == w[r].out;
        assert forall r :: 0 <= r < |w| ==> w'[r] == w[r];
      }
    }
    w'
  }

  /** `fail()` called at one point of the body on the ranks in `on`: exactly
      those ranks' flags drop, and nothing is printed. */
  function ApplyFail(w: seq<RankState>, on: seq<bool>): (w': seq<RankState>)
    requires |on| == |w|
    ensures Evolves(w, w')
    ensures forall r :: 0 <= r < |w| ==> (w'[r].test.passed <==> w[r].test.passed && !on[r])
    ensures forall r :: 0 <= r < |w| ==> w'[r].out == w[r].out
    ensures forall r :: 0 <= r < |w| && !on[r] ==> w'[r] == w[r]
  {
    seq(|w|, r requires 0 <= r < |w| => if on[r] then RankState(Fail(w[r].test), w[r].out) else w[r])
  }

  method ApplyStep(w: seq<RankState>, s: Step) returns (w': seq<RankState>)
    requires 1 <= |w| && ValidStep(s, |w|)
    ensures Evolves(w, w')
    ensures AllPassed(w') <==> AllPassed(w) && StepHolds(s)
  {
    match s
    case LocalStep(raised) =>
      w' := ApplyLocal(w, raised);
      if !StepHolds(s) {
        var r :| 0 <= r < |raised| && raised[r].Some? && !raised[r].value.condition;
        assert !w'[r].test.passed;
      }
    case GlobalStep(raised) =>
      w' := ApplyGlobal(w, raised);
    case FailStep(on) =>
      w' := ApplyFail(w, on);
      if !StepHolds(s) {
        var r :| 0 <= r < |on| && on[r];
        assert !w'[r].test.passed;
      }
  }

  /** Nothing a step does changes which test a rank holds or erases output,
      so neither does any sequence of steps. */
  lemma EvolvesTrans(a: seq<RankState>, b: seq<RankState>, c: seq<RankState>)
    requires Evolves(a, b) && Evolves(b, c)
    ensures Evolves(a, c)
  {
    assert forall r :: 0 <= r < |a| ==> a[r].out <= b[r].out <= c[r].out;
    forall r, j | 0 <= r < |a| && |a[r].out| <= j < |c[r].out|
      ensures ReportLine(c[r].out[j])
    {
      if j < |b[r].out| {
        assert c[r].out[j] == b[r].out[j];
      }
    }
  }

  lemma BodyHoldsSnoc(body: seq<Step>, k: nat)
    requires k < |body|
    ensures BodyHolds(body[..k + 1]) <==> BodyHolds(body[..k]) && StepHolds(body[k])
  {
    assert forall j :: 0 <= j < k ==> body[..k + 1][j] == body[..k][j];
    assert body[..k + 1][k] == body[k];
  }

  /** The test body, every assertion reported and every `fail()` call made
      in program order. After it, every rank still holds its flag exactly when
      no rank started failed, no assertion in the body failed anywhere and no
      rank called `fail()`. */
  method RunBody(w: seq<RankState>, body: seq<Step>) returns (w': seq<RankState>)
    requires 1 <= |w| && ValidBody(body, |w|)
    ensures Evolves(w, w')
    ensures AllPassed(w') <==> AllPassed(w) && BodyHolds(body)
  {
    w' := w;
    for k := 0 to |body|
      invariant Evolves(w, w')
      invariant AllPassed(w') <==> AllPassed(w) && BodyHolds(body[..k])
    {
      var next := ApplyStep(w', body[k]);
      EvolvesTrans(w, w', next);
      BodyHoldsSnoc(body, k);
      w' := next;
    }
    assert body[..|body|] == body;
  }

  /* ---------------------------------------------------------------------- */
  /* run()                                                                  */
  /* ---------------------------------------------------------------------- */

  function RunningLine(id: TestId): Line
  {
    Line(Blue, "   - Running " + TestName(id))
  }

  /** The line rank 0 prints once the verdict is known. */
  function VerdictLine(id: TestId, passed: bool): Line
  {
    if passed then Line(Green, "   - " + TestName(id) + ":  passed")
    else Line(Red, "   - " + TestName(id) + ": failed")
  }

  /** The lines `run()` prints itself are never mistaken for assertion
      reports: the Running line is blue, and the verdict line, red or green,
      is a "   - " bullet that does not end in a full stop. */
  lemma RunLinesNotReports(id: TestId, passed: bool)
    ensures !ReportLine(RunningLine(id))
    ensures !ReportLine(VerdictLine(id, passed))
  {
    var t := VerdictLine(id, passed).text;
    assert t[3] == '-' && t[|t| - 1] == 'd';
  }

  datatype TestRun = TestRun(verdicts: seq<bool>, ranks: seq<RankState>)

  /** Rank 0 announces the test it is about to run; nothing else changes. */
  function Announce(w: seq<RankState>): (w': seq<RankState>)
    requires 1 <= |w|
    ensures |w'| == |w|
    ensures forall r :: 0 <= r < |w| ==> w'[r].test == w[r].test
    ensures w'[0].out == w[0].out + [RunningLine(w[0].test.id)]
    ensures forall r :: 1 <= r < |w| ==> w'[r] == w[r]
    ensures AllPassed(w') == AllPassed(w)
  {
    w[0 := RankState(w[0].test, w[0].out + [RunningLine(w[0].test.id)])]
  }

  /** Every rank takes the reduced verdict as its flag; rank 0 prints it. */
  function Conclude(after: seq<RankState>, verdicts: seq<bool>): (ranks: seq<RankState>)
    requires 1 <= |after| == |verdicts|
    ensures |ranks| == |after|
    ensures forall r :: 0 <= r < |after| ==> ranks[r].test == after[r].test.(passed := verdicts[r])
    ensures ranks[0].out == after[0].out + [VerdictLine(after[0].test.id, verdicts[0])]
    ensures forall r :: 1 <= r < |after| ==> ranks[r].out == after[r].out
  {
    seq(|after|, r requires 0 <= r < |after| =>
      var closing := if r == 0 then [VerdictLine(after[0].test.id, verdicts[0])] else [];
      RankState(after[r].test.(passed := verdicts[r]), after[r].out + closing))
  }

  /** `run()` on every rank: rank 0 announces the test, all ranks pass the
      first barrier, run the body, pass the second barrier, and reduce their
      flags. Each rank's flag is overwritten with, and `run()` returns, the
      collective verdict; rank 0 prints it. `after` is what the ranks have
      printed once the body is done: rank 0's Running line, then on every
      rank that rank's assertion reports and nothing else. */
  method RunTest(w: seq<RankState>, body: seq<Step>) returns (run: TestRun, after: seq<seq<Line>>)
    requires 1 <= |w| && ValidBody(body, |w|)
    ensures |run.verdicts| == |run.ranks| == |after| == |w|
    ensures forall r :: 0 <= r < |w| ==> (run.verdicts[r] <==> AllPassed(w) && BodyHolds(body))
    ensures forall r, s :: 0 <= r < |w| && 0 <= s < |w| ==> run.verdicts[r] == run.verdicts[s]
    ensures forall r :: 0 <= r < |w| ==> run.ranks[r].test.passed == run.verdicts[r]
    ensures forall r :: 0 <= r < |w| ==> run.ranks[r].test.id == w[r].test.id
    ensures w[0].out + [RunningLine(w[0].test.id)] <= after[0]
    ensures forall j :: |w[0].out| < j < |after[0]| ==> ReportLine(after[0][j])
    ensures forall r :: 1 <= r < |w| ==> w[r].out <= after[r]
    ensures forall r, j :: 1 <= r < |w| && |w[r].out| <= j < |after[r]| ==> ReportLine(after[r][j])
    ensures run.ranks[0].out == after[0] + [VerdictLine(w[0].test.id, run.verdicts[0])]
    ensures forall r :: 1 <= r < |w| ==> run.ranks[r].out == after[r]
  {
    var announced := Announce(w);
    var ran := RunBody(announced, body);
    var verdicts := GlobalReduce(Flags(ran));
    assert AllTrue(Flags(ran)) == AllPassed(ran);
    var ranks := Conclude(ran, verdicts);
    after := Outputs(ran);
    run := TestRun(verdicts, ranks);
  }

  /** `run()` on a body in which a local assertion fails on a single rank,
      which no other rank saw, returns false on every rank. */
  method LocalFailureFailsEveryRank(w: seq<RankState>, body: seq<Step>, k: nat, r: nat) returns (run: TestRun)
    requires 1 <= |w| && ValidBody(body, |w|)
    requires k < |body| && body[k].LocalStep? && r < |body[k].raisedOn|
    requires body[k].raisedOn[r].Some? && !body[k].raisedOn[r].value.condition
    ensures |run.verdicts| == |w|
    ensures forall s :: 0 <= s < |w| ==> !run.verdicts[s]
  {
    var after;
    run, after := RunTest(w, body);
    assert !StepHolds(body[k]);
  }

  /** `run()` on a body in which a single rank calls `fail()` returns false
      on every rank. */
  method FailCallFailsEveryRank(w: seq<RankState>, body: seq<Step>, k: nat, r: nat) returns (run: TestRun)
    requires 1 <= |w| && ValidBody(body, |w|)
    requires k < |body| && body[k].FailStep? && r < |body[k].failOn| && body[k].failOn[r]
    ensures |run.verdicts| == |w|
    ensures forall s :: 0 <= s < |w| ==> !run.verdicts[s]
  {
    var after;
    run, after := RunTest(w, body);
    assert !StepHolds(body[k]);
  }

  /* ---------------------------------------------------------------------- */
  /* register_test                                                          */
  /* ---------------------------------------------------------------------- */

  /** A test as registered: its identity and what its body does on each rank. */
  datatype TestDef = TestDef(id: TestId, body: seq<Step>)

  datatype Suite = Suite(name: string, tests: seq<TestDef>)

  /** The registry: suites in one fixed order, the same on every rank, each
      with its tests in registration order. */
  type Registry = seq<Suite>

  /** The suite names in registry order. */
  function Names(reg: Registry): (names: seq<string>)
    ensures |names| == |reg|
    ensures forall i :: 0 <= i < |reg| ==> names[i] == reg[i].name
  {
    seq(|reg|, i requires 0 <= i < |reg| => reg[i].name)
  }

  /** The position of the first `name` in `names`, or |names| when absent. */
  function IndexOf(names: seq<string>, name: string): (i: nat)
    ensures i <= |names|
    ensures i < |names| ==> names[i] == name
    ensures forall j :: 0 <= j < i ==> names[j] != name
  {
    if |names| == 0 then 0
    else if names[0] == name then 0
    else 1 + IndexOf(names[1..], name)
  }

  /** Where suite `name` sits in the registry, or |reg| when it is absent. */
  function SuiteIndex(reg: Registry, name: string): (i: nat)
    ensures i <= |reg|
    ensures i < |reg| ==> reg[i].name == name
    ensures forall j :: 0 <= j < i ==> reg[j].name != name
  {
    IndexOf(Names(reg), name)
  }

  /** The tests registered under `name` (what `m_tests[name]` holds). */
  function TestsOf(reg: Registry, name: string): seq<TestDef>
  {
    var i := SuiteIndex(reg, name);
    if i < |reg| then reg[i].tests else []
  }

  predicate UniqueSuites(reg: Registry)
  {
    forall i, j :: 0 <= i < j < |reg| ==> reg[i].name != reg[j].name
  }

  /** Every test sits in the suite its identity names. */
  predicate Filed(reg: Registry)
  {
    forall i, k :: 0 <= i < |reg| && 0 <= k < |reg[i].tests| ==> reg[i].tests[k].id.suite == reg[i].name
  }

  /** How `register_test` changes the registry: the suite lists stay free of
      duplicates, the new test goes to the end of its suite's list with the
      earlier tests kept in order, every other suite's list is unchanged, and
      a suite seen for the first time is added after all known suites. */
  ghost predicate AppendsTest(reg: Registry, t: TestDef, reg': Registry)
  {
    && UniqueSuites(reg')
    && (Filed(reg) ==> Filed(reg'))
    && (forall name :: TestsOf(reg', name) == TestsOf(reg, name) + (if name == t.id.suite then [t] else []))
    && |reg| <= |reg'| <= |reg| + 1
    && (forall i :: 0 <= i < |reg| ==> reg'[i].name == reg[i].name)
    && (forall i :: 0 <= i < |reg| && reg[i].name != t.id.suite ==> reg'[i] == reg[i])
  }

  /** What `register_test` calls alone can build: suite names are distinct,
      every test sits under its own suite, and every suite holds at least one
      test (an entry of `m_tests` only comes into being with the test pushed
      into it). */
  predicate Registered(reg: Registry)
  {
    && UniqueSuites(reg)
    && Filed(reg)
    && (forall i :: 0 <= i < |reg| ==> |reg[i].tests| > 0)
  }

  /** The empty registry is `Registered`, and `register_test` keeps it so. */
  lemma RegisterKeepsRegistered(reg: Registry, t: TestDef)
    requires Registered(reg)
    ensures Registered(Register(reg, t))
  {
    var reg' := Register(reg, t);
    assert TestsOf(reg', t.id.suite) == TestsOf(reg, t.id.suite) + [t];
    forall i | 0 <= i < |reg'| ensures |reg'[i].tests| > 0 {
      if i < |reg| && reg[i].name != t.id.suite {
        assert reg'[i] == reg[i];
      } else {
        assert SuiteIndex(reg', reg'[i].name) == i;
      }
    }
  }

  /** `register_test`: `m_tests[suite].push_back(test)`. */
  function Register(reg: Registry, t: TestDef): (reg': Registry)
    requires UniqueSuites(reg)
    ensures AppendsTest(reg, t, reg')
  {
    var i := SuiteIndex(reg, t.id.suite);
    if i == |reg| then
      RegisterNewSuite(reg, t);
      reg + [Suite(t.id.suite, [t])]
    else
      RegisterKnownSuite(reg, t, i);
      reg[i := Suite(reg[i].name, reg[i].tests + [t])]
  }

  lemma RegisterNewSuite(reg: Registry, t: TestDef)
    requires UniqueSuites(reg)
    requires SuiteIndex(reg, t.id.suite) == |reg|
    ensures UniqueSuites(reg + [Suite(t.id.suite, [t])])
    ensures Filed(reg) ==> Filed(reg + [Suite(t.id.suite, [t])])
    ensures forall name ::
      TestsOf(reg + [Suite(t.id.suite, [t])], name) == TestsOf(reg, name) + (if name == t.id.suite then [t] else [])
    ensures forall i :: 0 <= i < |reg| ==> (reg + [Suite(t.id.suite, [t])])[i] == reg[i]
  {
    var reg' := reg + [Suite(t.id.suite, [t])];
    forall i, j | 0 <= i < j < |reg'| ensures reg'[i].name != reg'[j].name {
      if j < |reg| {
        assert reg'[i] == reg[i] && reg'[j] == reg[j];
      } else {
        assert reg'[i].name == reg[i].name;
      }
    }
    if Filed(reg) {
      forall i, k | 0 <= i < |reg'| && 0 <= k < |reg'[i].tests|
        ensures reg'[i].tests[k].id.suite == reg'[i].name
      {
        if i < |reg| {
          assert reg'[i] == reg[i];
        }
      }
    }
    forall name ensures TestsOf(reg', name) == TestsOf(reg, name) + (if name == t.id.suite then [t] else []) {
      SuiteIndexAppend(reg, Suite(t.id.suite, [t]), name);
    }
  }

  lemma RegisterKnownSuite(reg: Registry, t: TestDef, i: nat)
    requires UniqueSuites(reg)
    requires i < |reg|
    requires i == SuiteIndex(reg, t.id.suite)
    ensures AppendsTest(reg, t, reg[i := Suite(reg[i].name, reg[i].tests + [t])])
  {
    var reg' := reg[i := Suite(reg[i].name, reg[i].tests + [t])];
    KnownSuiteFiled(reg, t, i);
    forall name ensures TestsOf(reg', name) == TestsOf(reg, name) + (if name == t.id.suite then [t] else []) {
      KnownSuiteTestsOf(reg, t, i, name);
    }
  }

  lemma KnownSuiteFiled(reg: Registry, t: TestDef, i: nat)
    requires i < |reg|
    requires reg[i].name == t.id.suite
    ensures Filed(reg) ==> Filed(reg[i := Suite(reg[i].name, reg[i].tests + [t])])
  {
    var reg' := reg[i := Suite(reg[i].name, reg[i].tests + [t])];
    if Filed(reg) {
      forall j, k | 0 <= j < |reg'| && 0 <= k < |reg'[j].tests|
        ensures reg'[j].tests[k].id.suite == reg'[j].name
      {
        if j == i && k == |reg[i].tests| {
          assert reg'[j].tests[k] == t;
        } else if j == i {
          assert reg'[j].tests[k] == reg[j].tests[k];
        }
      }
    }
  }

  lemma KnownSuiteTestsOf(reg: Registry, t: TestDef, i: nat, name: string)
    requires UniqueSuites(reg)
    requires i < |reg|
    requires i == SuiteIndex(reg, t.id.suite)
    ensures TestsOf(reg[i := Suite(reg[i].name, reg[i].tests + [t])], name)
      == TestsOf(reg, name) + (if name == t.id.suite then [t] else [])
  {
    var reg' := reg[i := Suite(reg[i].name, reg[i].tests + [t])];
    SuiteIndexSameNames(reg, reg', name);
    if name != t.id.suite && SuiteIndex(reg, name) < |reg| {
      assert SuiteIndex(reg, name) != i;
    }
  }

  /** A first occurrence is unique, so appending a suite moves no index that
      was already found, and an absent name is found at the new suite or
      stays absent. */
  lemma SuiteIndexAppend(reg: Registry, s: Suite, name: string)
    ensures SuiteIndex(reg, name) < |reg| ==> SuiteIndex(reg + [s], name) == SuiteIndex(reg, name)
    ensures SuiteIndex(reg, name) == |reg| ==>
      SuiteIndex(reg + [s], name) == (if s.name == name then |reg| else |reg| + 1)
  {
    var i := SuiteIndex(reg, name);
    assert forall j :: 0 <= j < |reg| ==> (reg + [s])[j] == reg[j];
    if i < |reg| {
      assert (reg + [s])[i] == reg[i];
    } else {
      assert (reg + [s])[|reg|] == s;
    }
  }

  lemma SuiteIndexSameNames(reg: Registry, reg': Registry, name: string)
    requires |reg| == |reg'|
    requires forall i :: 0 <= i < |reg| ==> reg[i].name == reg'[i].name
    ensures SuiteIndex(reg', name) == SuiteIndex(reg, name)
  {
    assert Names(reg') == Names(reg);
  }

  /* ---------------------------------------------------------------------- */
  /* run_all                                                                */
  /* ---------------------------------------------------------------------- */

  predicate ValidTests(tests: seq<TestDef>, size: nat)
  {
    forall k :: 0 <= k < |tests| ==> ValidBody(tests[k].body, size)
  }

  predicate ValidRegistry(reg: Registry, size: nat)
  {
    forall i :: 0 <= i < |reg| ==> ValidTests(reg[i].tests, size)
  }

  /** Each rank's own freshly constructed instance of test `id`, with what
      the rank has printed so far. */
  function FreshWorld(id: TestId, outs: seq<seq<Line>>): (w: seq<RankState>)
    ensures |w| == |outs|
    ensures AllPassed(w)
    ensures forall r :: 0 <= r < |outs| ==> w[r].test.id == id && w[r].out == outs[r]
  {
    var w := seq(|outs|, r requires 0 <= r < |outs| => RankState(NewTest(id.suite, id.name), outs[r]));
    assert forall r :: 0 <= r < |outs| ==> w[r].test == NewTest(id.suite, id.name);
    w
  }

  /** The verdict each test's body earns: every assertion in it holds. */
  function BodyVerdicts(tests: seq<TestDef>): (v: seq<bool>)
    ensures |v| == |tests|
    ensures forall k :: 0 <= k < |tests| ==> v[k] == BodyHolds(tests[k].body)
  {
    seq(|tests|, k requires 0 <= k < |tests| => BodyHolds(tests[k].body))
  }

  /** One iteration of the inner loop of `run_all`: `run()` on every rank's
      fresh instance of the test. The collective verdict is true exactly when
      the body holds everywhere; what the ranks printed before is kept. Rank 0
      adds the Running line, its assertion reports and the verdict line; the
      other ranks add their assertion reports only. */
  method RunFresh(t: TestDef, outs: seq<seq<Line>>) returns (passed: bool, outs': seq<seq<Line>>)
    requires 1 <= |outs| && ValidBody(t.body, |outs|)
    ensures passed <==> BodyHolds(t.body)
    ensures Grows(outs, outs')
    ensures |outs'[0]| >= |outs[0]| + 2 && outs'[0][|outs[0]|] == RunningLine(t.id)
    ensures forall j :: |outs[0]| < j < |outs'[0]| - 1 ==> ReportLine(outs'[0][j])
    ensures outs'[0][|outs'[0]| - 1] == VerdictLine(t.id, passed)
  {
    var w := FreshWorld(t.id, outs);
    var run, after := RunTest(w, t.body);
    passed := run.verdicts[0];
    outs' := Outputs(run.ranks);
    assert outs'[0] == after[0] + [VerdictLine(t.id, passed)];
    assert outs'[0][|outs[0]|] == after[0][|outs[0]|];
  }

  /** What each rank has printed. */
  function Outputs(w: seq<RankState>): (outs: seq<seq<Line>>)
    ensures |outs| == |w|
    ensures forall r :: 0 <= r < |w| ==> outs[r] == w[r].out
  {
    seq(|w|, r requires 0 <= r < |w| => w[r].out)
  }

  /** What the ranks have printed only grows, and all that ranks other than
      0 add is assertion reports. */
  predicate Grows(outs: seq<seq<Line>>, outs': seq<seq<Line>>)
  {
    && |outs'| == |outs|
    && (forall r :: 0 <= r < |outs| ==> outs[r] <= outs'[r])
    && (forall r, j :: 1 <= r < |outs| && |outs[r]| <= j < |outs'[r]| ==> ReportLine(outs'[r][j]))
  }

  lemma GrowsTrans(a: seq<seq<Line>>, b: seq<seq<Line>>, c: seq<seq<Line>>)
    requires Grows(a, b) && Grows(b, c)
    ensures Grows(a, c)
  {
    forall r, j | 1 <= r < |a| && |a[r]| <= j < |c[r]|
      ensures ReportLine(c[r][j])
    {
      if j < |b[r]| {
        assert c[r][j] == b[r][j];
      }
    }
  }

  lemma BodyVerdictsSnoc(tests: seq<TestDef>, k: nat)
    requires k < |tests|
    ensures BodyVerdicts(tests[..k + 1]) == BodyVerdicts(tests[..k]) + [BodyHolds(tests[k].body)]
  {
  }

  /** The inner loop of `run_all` over one suite's tests: `run()` each on
      fresh instances and count those whose collective verdict is true. */
  method RunSuite(tests: seq<TestDef>, outs: seq<seq<Line>>) returns (passed: nat, outs': seq<seq<Line>>)
    requires 1 <= |outs| && ValidTests(tests, |outs|)
    ensures passed == CountTrue(BodyVerdicts(tests))
    ensures Grows(outs, outs')
  {
    passed, outs' := 0, outs;
    for k := 0 to |tests|
      invariant passed == CountTrue(BodyVerdicts(tests[..k]))
      invariant Grows(outs, outs')
    {
      var ok, next := RunFresh(tests[k], outs');
      BodyVerdictsSnoc(tests, k);
      CountTrueSnoc(BodyVerdicts(tests[..k]), ok);
      GrowsTrans(outs, outs', next);
      passed := passed + (if ok then 1 else 0);
      outs' := next;
    }
    assert tests[..|tests|] == tests;
  }

  /** What `run_all` counts for one suite. */
  datatype Tally = Tally(suite: string, passed: nat, total: nat)

  function SummaryLine(t: Tally): (line: Line)
    ensures line.color == Green <==> t.passed == t.total
    ensures line.color != Green ==> line.color == Red
  {
    var color := if t.passed == t.total then Green else Red;
    Line(color, "   - " + t.suite + " " + NatToString(t.passed) + "/" + NatToString(t.total) + " passed")
  }

  function SummaryLines(tallies: seq<Tally>): (lines: seq<Line>)
    ensures |lines| == |tallies|
    ensures forall k :: 0 <= k < |tallies| ==> lines[k] == SummaryLine(tallies[k])
  {
    seq(|tallies|, k requires 0 <= k < |tallies| => SummaryLine(tallies[k]))
  }

  /** What `run_all` counts for each suite, in registry order: its name, the
      number of its tests with a true collective verdict, and the number of
      its tests. */
  function Tallies(reg: Registry): (tallies: seq<Tally>)
    ensures |tallies| == |reg|
    ensures forall i :: 0 <= i < |reg| ==>
      tallies[i] == Tally(reg[i].name, CountTrue(BodyVerdicts(reg[i].tests)), |reg[i].tests|)
    ensures forall i :: 0 <= i < |reg| ==> tallies[i].passed <= tallies[i].total
  {
    seq(|reg|, i requires 0 <= i < |reg| =>
      Tally(reg[i].name, CountTrue(BodyVerdicts(reg[i].tests)), |reg[i].tests|))
  }

  lemma TalliesSnoc(reg: Registry, i: nat)
    requires i < |reg|
    ensures Tallies(reg[..i + 1]) ==
      Tallies(reg[..i]) + [Tally(reg[i].name, CountTrue(BodyVerdicts(reg[i].tests)), |reg[i].tests|)]
  {
  }

  /** The outer loop of `run_all`: every suite in registry order. */
  method RunSuites(reg: Registry, outs: seq<seq<Line>>) returns (tallies: seq<Tally>, outs': seq<seq<Line>>)
    requires 1 <= |outs| && ValidRegistry(reg, |outs|)
    ensures tallies == Tallies(reg)
    ensures Grows(outs, outs')
  {
    tallies, outs' := [], outs;
    for i := 0 to |reg|
      invariant tallies == Tallies(reg[..i])
      invariant Grows(outs, outs')
    {
      var passed, next := RunSuite(reg[i].tests, outs');
      TalliesSnoc(reg, i);
      GrowsTrans(outs, outs', next);
      tallies := tallies + [Tally(reg[i].name, passed, |reg[i].tests|)];
      outs' := next;
    }
    assert reg[..|reg|] == reg;
  }

  /** The line rank 0 opens `run_all` with. */
  function Banner(size: nat): Line
  {
    Line(Plain, "Testing (world_size = " + NatToString(size) + "):")
  }

  /** Only rank 0 prints the summary. */
  function PrintOnRankZero(outs: seq<seq<Line>>, lines: seq<Line>): (outs': seq<seq<Line>>)
    requires 1 <= |outs|
    ensures |outs'| == |outs|
    ensures outs'[0] == outs[0] + lines
    ensures forall r :: 1 <= r < |outs| ==> outs'[r] == outs[r]
  {
    outs[0 := outs[0] + lines]
  }

  /** `run_all` on a world of `size` ranks. Rank 0 opens with the world size
      and, once every test has run (leaving the outputs `ran`), closes with a
      blank line, the heading and one summary line per suite. The other ranks
      print neither: all they print is assertion reports. */
  method RunAll(reg: Registry, size: nat) returns (tallies: seq<Tally>, ran: seq<seq<Line>>, outs: seq<seq<Line>>)
    requires 1 <= size && Registered(reg) && ValidRegistry(reg, size)
    ensures tallies == Tallies(reg)
    ensures |ran| == |outs| == size
    ensures |ran[0]| >= 1 && ran[0][0] == Banner(size)
    ensures outs[0] == ran[0] + [Line(Plain, ""), Line(Plain, "Summary:")] + SummaryLines(tallies)
    ensures forall r :: 1 <= r < size ==> outs[r] == ran[r]
    ensures forall r, j :: 1 <= r < size && 0 <= j < |outs[r]| ==> ReportLine(outs[r][j])
  {
    var opening := seq(size, r => if r == 0 then [Banner(size)] else []);
    tallies, ran := RunSuites(reg, opening);
    assert [Banner(size)] <= ran[0];
    outs := PrintOnRankZero(ran, [Line(Plain, ""), Line(Plain, "Summary:")] + SummaryLines(tallies));
  }

  /** A suite is summarised in green exactly when every one of its tests
      earned a true collective verdict, and in red otherwise; `RunAll` tallies
      each suite as passed = CountTrue(BodyVerdicts(tests)) of total = |tests|. */
  lemma SummaryGreenIffAllPassed(name: string, tests: seq<TestDef>)
    ensures SummaryLine(Tally(name, CountTrue(BodyVerdicts(tests)), |tests|)).color == Green <==>
      forall k :: 0 <= k < |tests| ==> BodyHolds(tests[k].body)
  {
    CountTrueIsSize(BodyVerdicts(tests));
  }
}

=== FILE: test.dfy ===
/**
 The Test entity of one rank: its identity and its local pass flag. Every rank
 holds its own instance of each test; the instances of one test differ only in
 their pass flags.
 */
module Tests {

  datatype TestId = TestId(suite: string, name: string)

  datatype Test = Test(id: TestId, passed: bool)

  /** A freshly constructed test: the flag starts true. */
  function NewTest(suite: string, name: string): (t: Test)
    ensures t.passed
    ensures t.id.suite == suite && t.id.name == name
  {
    Test(TestId(suite, name), true)
  }

  /** `fail()`: the flag can only be moved to false, and the identity stays. */
  function Fail(t: Test): (t': Test)
    ensures !t'.passed
    ensures t'.id == t.id
  {
    t.(passed := false)
  }

  /** `test_name()`: the suite, two colons, the test name. */
  function TestName(id: TestId): (s: string)
    ensures |s| == |id.suite| + 2 + |id.name|
    ensures s[..|id.suite|] == id.suite
    ensures s[|id.suite|..|id.suite| + 2] == "::"
    ensures s[|id.suite| + 2..] == id.name
  {
    id.suite + "::" + id.name
  }

  /** A test name comes from the TEST macro's second argument, which names a
      class, so it is a C++ identifier and holds no colon. A suite name is the
      macro's first argument, which opens a (possibly nested) namespace, so it
      may contain "::". */
  predicate NoColon(s: string)
  {
    forall i :: 0 <= i < |s| ==> s[i] != ':'
  }

  /** The index just past the last colon in `s`, or 0 when there is none. */
  function AfterLastColon(s: string): (i: nat)
    ensures i <= |s|
    ensures forall j :: i <= j < |s| ==> s[j] != ':'
    ensures i > 0 ==> s[i - 1] == ':'
  {
    if |s| == 0 then 0
    else if s[|s| - 1] == ':' then |s|
    else AfterLastColon(s[..|s| - 1])
  }

  /** In a printed name the last colon is the second one of the "::" after
      the suite, whatever colons the suite holds. */
  lemma NameStartsAfterLastColon(id: TestId)
    requires NoColon(id.name)
    ensures AfterLastColon(TestName(id)) == |id.suite| + 2
  {
    var s := TestName(id);
    var k := |id.suite| + 2;
    assert forall j :: k <= j < |s| ==> s[j] == id.name[j - k];
    assert s[k - 1] == ':';
  }

  /** When test names are identifiers the printed `suite::name` determines
      the test, even for suites named after nested namespaces. */
  lemma TestNameInjective(a: TestId, b: TestId)
    requires NoColon(a.name) && NoColon(b.name)
    requires TestName(a) == TestName(b)
    ensures a == b
  {
    var s := TestName(a);
    NameStartsAfterLastColon(a);
    NameStartsAfterLastColon(b);
    var la := |a.suite|;
    assert a.suite == s[..la] == b.suite;
    assert a.name == s[la + 2..] == b.name;
  }
}
